=== FILE: README.md ===
# Alist browser client: navigation, preview, relay and layout logic in Dafny

This project models the pure logic of a browser client for an Alist-style file-listing service. The client is a Nuxt/Vue app. The model covers:

- **Directory navigation** (`Paths`, `FileList`). It covers the segments of the current path, the parent path used by "back", breadcrumb paths, how a listing result replaces or clears the entries on show, and the starting path restored from storage.
- **File classification and relay URLs** (`FileUtils`). Image and video are case-insensitive suffix tests that are false for directories. `ConvertToProxyUrl` puts a URL under the `/proxy/` prefix.
- **Preview resolution and click dispatch** (`Preview`). The preview URL falls back from the raw URL to the looked-up download URL (relayed for videos), then to the thumbnail, then to `""`. A click is dispatched as directory, image, video or plain file.
- **The relay middleware** (`ProxyRelay`). It declines anything outside `/proxy/`. It extracts the upstream target. For `OPTIONS` it sets the CORS headers and returns without forwarding; as with a declined request, the rest of the server then handles it. Every other request is forwarded with a `host` header. A forwarding error becomes a 500.
- **The service client** (`AlistApi`). It covers the request headers and the code-200 gate. It gives a constructed raw URL to image entries that have neither a thumbnail nor a raw URL. It also chooses between `raw_url` and `url` for downloads.
- **Layout preferences** (`Layout`). These are the grid/list toggle, saving to storage, and the restore rules: a layout must be exactly `grid` or `list`, and a column count must lie in 2..10.

`Wiring` composes the pieces the way the app does: the file list loads through the service client's listing call, and the preview looks URLs up through the download-URL call (`getDownloadUrl`, `/api/fs/get`).

The surroundings are parameters. These are the service replies, the HEIC-to-JPEG conversion, host parsing of a URL, the forwarding call, the download lookup and `parseInt`. Storage is a `map<string, string>`. Every asynchronous call is modelled as one atomic step.

`JsText` gives the JavaScript primitives a precise meaning. Its definitions without a contract (`Or` for `||`, `Interpolate` for `${x}`, `ToLower` for `toLowerCase`, `Join` for `join`) and `Layout.IntToDecimal` for `toString` are the definitions of those primitives. `Paths.SliceEnd` likewise defines where JavaScript's `slice(0, end)` stops, a negative `end` counting back from the end. `Join` and `IntToDecimal` are further related to `split` and `parseInt` by `JsText.SplitJoin`, `JsText.JoinSplit` and `Layout.DecimalRoundTrip`. It covers:

- truthiness of optional strings and `||`;
- `${x}` of an absent value, which renders as `undefined`;
- `split`, `filter(Boolean)` and `join`;
- the regular-expression `.`, which stops at line terminators.

The client has no listing cache, no pagination beyond the first page and no scroll restoration: every listing request asks for page 1 with 100 entries. The relay takes the full upstream URL after `/proxy/`.

## Model

| member | source | states |
|---|---|---|
| JsText.Split | composables/file/useFileList.ts:49 | `split('/')` always yields at least one piece, and no piece contains the separator |
| JsText.FilterNonEmpty | composables/file/useFileList.ts:49 | `filter(Boolean)` keeps only non-empty strings taken from the input, and keeps every non-empty string as often as it occurs; an all-non-empty list is unchanged |
| JsText.FilterConcat | composables/file/useFileList.ts:49 | filtering distributes over concatenation, so the kept strings stay in input order |
| JsText.SplitConcat | composables/file/useFileList.ts:49 | splitting `a + sep + b` gives the pieces of `a` followed by the pieces of `b` |
| JsText.SplitJoin | composables/file/useFileList.ts:37-39 | splitting the join of separator-free pieces gives the pieces back |
| JsText.JoinSplit | composables/file/useFileList.ts:37-39 | joining the pieces of a split with the same separator restores the string |
| JsText.JoinPrefix | composables/file/useFileList.ts:53 | joining the first k segments gives a prefix of joining all of them |
| JsText.TakeLine | server/middleware/proxy.ts:9 | the capture of `(.*)` is the longest prefix without a line terminator |
| Paths.Segments | composables/file/useFileList.ts:48-50 | the path segments are all non-empty and slash-free; a slash-free path is its own single segment, or none when empty |
| Paths.SegmentsOfConcat | composables/file/useFileList.ts:48-50 | the segments of `a/b` are the segments of `a` followed by those of `b`, whatever stray slashes either holds |
| Paths.SegmentsOfFromSegments | composables/file/useFileList.ts:48-53 | re-splitting `'/' + segments.join('/')` gives exactly those segments |
| Paths.NormaliseIdempotent | composables/file/useFileList.ts:48-53 | rebuilding a path from its segments is idempotent and yields a canonical path |
| Paths.CanonicalIsNormal | composables/file/useFileList.ts:37-39 | a canonical path is rebuilt unchanged from its segments |
| Paths.NormalFormIff | composables/file/useFileList.ts:37-39 | rebuilding a path from its segments leaves it unchanged exactly when it is canonical |
| Paths.FromSegmentsCanonical | composables/file/useFileList.ts:39 | a path rebuilt from segments starts with `/` and has no trailing or doubled slash |
| Paths.ParentPath | composables/file/useFileList.ts:37-39 | the parent is canonical and has the segments minus the last one; it is `/` when there are no segments; it is a prefix of the normalised path |
| Paths.ParentOfThreeSegments | composables/file/useFileList.ts:37-39 | for any segments `a`, `b`, `c`, the parent of `/a/b/c` is `/a/b` |
| Paths.ParentOfUntidyPath | composables/file/useFileList.ts:37-39 | doubled and trailing slashes are ignored: for any segments `a`, `b`, the parent of `/a//b/` is `/a` |
| Paths.SegmentsOfUntidyPath | composables/file/useFileList.ts:48-50 | `/a//b/` has exactly the segments `a` and `b`: empty pieces from stray slashes are dropped |
| Paths.SegmentsOfChild | composables/file/useFileList.ts:48-50 | appending `/x` to a canonical path appends exactly the segment `x`, also at the root where `//x` results |
| Paths.ParentOfChild | composables/file/useFileList.ts:37-39 | the parent of `p + "/" + x` is `p` for every canonical `p` and segment `x`, so back undoes entering a directory |
| Paths.PathUpTo | composables/file/useFileList.ts:52-54 | the breadcrumb path is canonical, its segments are the first `index + 1` segments as `slice(0, index + 1)` takes them (at most all of them; a negative end counts back from the last), and it is a prefix of the normalised current path |
| Paths.PathUpToLast | composables/file/useFileList.ts:52-54 | the breadcrumb of the last segment, or of any later index, is the whole normalised path |
| Paths.PathUpToParent | composables/file/useFileList.ts:37-54 | the breadcrumb of the second-to-last segment is the path that going back leads to |
| FileList.LoadFiles | composables/file/useFileList.ts:12-33 | a returned result replaces the entries with its content, or clears them when it has none, and clears the error; a rejection keeps the entries and sets the failure message; loading ends false and the path is unchanged |
| FileList.NavigateTo | composables/file/useFileList.ts:43-46 | the current path becomes exactly the given path, and that path's listing is loaded |
| FileList.NavigateBack | composables/file/useFileList.ts:35-41 | at `/` nothing changes and nothing loads; elsewhere the path becomes the canonical parent with one segment fewer, and that path is loaded |
| FileList.BackIsNavigateToParent | composables/file/useFileList.ts:35-46 | going back from anywhere except the root equals navigating to the parent path |
| FileList.BackShortens | composables/file/useFileList.ts:37-39 | going back removes exactly one segment, or none when there are none |
| FileList.BackFromChild | composables/file/useFileList.ts:35-46 | navigating to `currentPath + "/" + x` and then back returns to a canonical current path |
| FileList.InitialPath | composables/file/useFileList.ts:67-71 | the start path is the stored path when it is non-empty, otherwise `/` |
| FileList.Mount | composables/file/useFileList.ts:67-74 | start-up adopts a non-empty stored last path, otherwise `/`, then loads it: the entries, error and loading flag are that listing applied to the initial state at the adopted path |
| FileList.PersistPath | composables/file/useFileList.ts:56-64 | a changed path is written under the last-path key; no other key is added, removed or changed; an unchanged path writes nothing |
| FileList.PersistThenMount | composables/file/useFileList.ts:56-71 | a non-empty path persisted on navigation is the path the next start-up resumes at (an empty one is falsy, so start-up resumes at `/`) |
| FileUtils.EndsWithAny | utils/file.ts:5 | `exts.some(endsWith)` holds iff some listed extension is a suffix |
| FileUtils.IsImage | utils/file.ts:3-6 | false for directories; otherwise true iff the lower-cased name ends with one of the seven image extensions |
| FileUtils.IsVideo | utils/file.ts:8-11 | false for directories; otherwise true iff the lower-cased name ends with one of the five video extensions |
| FileUtils.ImageNeverVideo | utils/file.ts:3-11 | no file is both image and video, because no extension pair shares its last two characters |
| FileUtils.ClassificationIgnoresOtherFields | utils/file.ts:3-11 | classification depends only on the name and the directory flag |
| FileUtils.ClassificationExamples | utils/file.ts:3-11 | `Photo.JPG` is an image and `clip.MoV` a video; a directory `album.jpg` and a file `a.jpg.txt` are not images |
| FileUtils.ConvertToProxyUrl | utils/file.ts:21-29 | the relay URL starts with `/proxy/`, is 7 characters longer than the URL, and its remainder is the URL |
| Preview.FirstTruthy | composables/file/usePreview.ts:13-34 | reference for a priority fallback: `""` iff no candidate is truthy, otherwise the value of the first truthy candidate |
| Preview.PreviewUrl | composables/file/usePreview.ts:13-34 | a truthy raw URL is returned without a lookup; otherwise the lookup is asked about `currentPath + "/" + name`; a truthy result is relayed for videos and returned as-is otherwise; failing that the thumbnail, failing that `""` |
| Preview.PreviewIsFirstCandidate | composables/file/usePreview.ts:13-34 | the preview URL is the first truthy value among the raw URL, the download URL and the thumbnail, in that order |
| Preview.PreviewEmptyIff | composables/file/usePreview.ts:13-34 | the preview is empty exactly when the raw URL, the lookup result and the thumbnail are all falsy |
| Preview.HandleFileClick | composables/file/usePreview.ts:36-73 | dispatch is directory, then image, then video, then plain file; a directory resolves no URL and changes nothing; the image or video preview is set only to a non-empty resolved URL; a plain file opens its URL only when it is non-empty |
| Preview.VideoClickIsVideo | composables/file/usePreview.ts:41-60 | every video file is dispatched as a video |
| Preview.ClosePreview | composables/file/usePreview.ts:75-77 | both preview URLs become null |
| ProxyRelay.ExtractTarget | server/middleware/proxy.ts:5-14 | a target exists iff the URL starts with `/proxy/`; it is the longest line-terminator-free prefix of the rest |
| ProxyRelay.ProxyRoundTrip | server/middleware/proxy.ts:9-14 | extracting the target of `ConvertToProxyUrl(u)` gives `u` for any single-line `u` |
| ProxyRelay.TargetRoundTrip | server/middleware/proxy.ts:9-14 | a single-line relay URL equals `ConvertToProxyUrl` of its target |
| ProxyRelay.Handle | server/middleware/proxy.ts:1-43 | declined iff the URL is missing or lacks the prefix; an unparsable host escapes before any header is set; `OPTIONS` returns after the three CORS headers and never forwards; other methods forward to the target with `host` set to its host; a forwarding error becomes status 500 with the error message or `Proxy request failed` |
| ProxyRelay.RelaysRewrittenUrl | server/middleware/proxy.ts:14-35 | for a URL `u` without line terminators whose host parses, a non-`OPTIONS` request for `ConvertToProxyUrl(u)` is forwarded to exactly `u` with `u`'s host |
| ProxyRelay.DeclinesOtherPaths | server/middleware/proxy.ts:5-7 | a request for `/notrelay/foo` is declined |
| AlistApi.RequestHeaders | composables/useAlistApi.ts:39-42 | the authorization header is `Bearer <token>` when a token is set and empty otherwise; the content type is JSON |
| AlistApi.RewriteEntry | composables/useAlistApi.ts:114-131 | only images with neither thumbnail nor raw URL change, and only in `raw_url`; non-`.heic` names get `/proxy/` + `baseUrl/d<path>/<name>?sign=<sign>`; `.heic` names get the conversion of that URL, or the conversion's error |
| AlistApi.AwaitAll | composables/useAlistApi.ts:132 | `Promise.all` of per-entry results: all items, same length and order, iff every entry succeeded; otherwise the first failure in list order |
| AlistApi.RewriteAll | composables/useAlistApi.ts:112-134 | all entries succeed iff each one does; then the result has the same length and order, and entry i is the rewrite of input i; otherwise the error is that of the first failing entry |
| AlistApi.RewriteKeepsEntries | composables/useAlistApi.ts:114-132 | rewriting keeps the number and order of entries and changes at most each raw URL |
| AlistApi.RewriteWithoutHeic | composables/useAlistApi.ts:116-127 | with no HEIC entry to convert, rewriting cannot fail, and every entry that needed a raw URL gets a `/proxy/` URL |
| AlistApi.ListFiles | composables/useAlistApi.ts:77-144 | requests page 1 of 100; a rejection, a code other than 200 or a failed conversion gives no listing and a non-empty error (the message or a default); absent content is returned untouched; otherwise content is the rewritten entries; loading ends false and the error is set iff no listing is returned |
| AlistApi.GetDownloadUrl | composables/useAlistApi.ts:146-172 | gives a URL iff the reply has code 200, and it is the truthy `raw_url` or else `url`; otherwise no URL and a non-empty error; loading ends false |
| Layout.ParseLayout | composables/file/useLayout.ts:34-37 | a stored layout is accepted iff it is exactly `grid` or `list` |
| Layout.LayoutNameRoundTrip | composables/file/useLayout.ts:14 | a saved layout name reads back as the same layout |
| Layout.ToggleLayout | composables/file/useLayout.ts:8-10 | toggling always changes the layout and keeps the column count |
| Layout.ToggleTwice | composables/file/useLayout.ts:8-10 | toggling twice restores the original state |
| Layout.NatToDecimal | composables/file/useLayout.ts:16 | the numeral written for a column count is non-empty decimal digits without a leading zero |
| Layout.DecimalRoundTrip | composables/file/useLayout.ts:16 | reading back the written numeral gives the number |
| Layout.SaveLayout | composables/file/useLayout.ts:13-18 | always writes the layout; writes the column count only for grid; touches no other key |
| Layout.Persist | composables/file/useLayout.ts:20-30 | no change writes nothing; a layout change saves the layout, otherwise the layout key is untouched; column counts are written only while the layout is grid; no key is removed and no other key changes |
| Layout.Restore | composables/file/useLayout.ts:33-47 | the layout is the stored one if valid, else grid; the columns are the default 3 unless the layout is grid and the non-empty stored text parses to 2..10 |
| Layout.RestoreEmpty | composables/file/useLayout.ts:5-6 | with nothing stored the defaults, grid and 3 columns, stay |
| Layout.SaveThenRestoreGrid | composables/file/useLayout.ts:13-47 | a saved grid layout with 2..10 columns is restored exactly, given a parse that reads its numeral |
| Layout.SaveThenRestoreList | composables/file/useLayout.ts:13-47 | a saved list layout restores as list with the default 3 columns |
| Layout.SaveThenRestoreGridDecimal | composables/file/useLayout.ts:13-47 | with a plain decimal parse, a saved grid layout with 2..10 columns is restored exactly |
| Layout.PersistKeepsStoreInSync | composables/file/useLayout.ts:20-47 | for a column count in 2..10 after the change, the watchers keep storage in step: if storage restored the state before a change, it restores the state after it (a list layout always with 3 columns) |
| Wiring.LoadThroughService | composables/file/useFileList.ts:17-26 | loading through the service client shows the rewritten entries of a code-200 listing whose conversions all succeed, and no entries otherwise; the file list's own error stays unset |
| Wiring.PreviewThroughService | composables/file/usePreview.ts:19-33 | for a file without a raw URL, the preview shows the detail reply's truthy `raw_url`, else its non-empty `url` (relayed for videos); when the detail call fails or yields `""` it shows the thumbnail or `""` |

## Left out

- AlistApi.RequestHeaders: the headers are computed but the reply oracles see only the request record or path, so no reply can depend on the token.
- Network and transport: `$fetch`, `proxyRequest` and `setResponseHeaders`. They are oracles, or the outputs of the model (the forwarding record and the header list).
- `convertHeicToJpeg` and `new URL(..).host` are opaque functions passed in as parameters. The file that defines the conversion is not part of this model.
- Browser storage (`localStorage`) is a map. The cookie-backed configuration (`baseUrl`, `token`) is passed in as plain parameters. Console logging is not modelled.
- `window.open` appears only as the `newWindow` output of a click. The following are not modelled: `nextTick`, the Plyr video player (its set-up, destruction in `closePreview`, and clean-up on unmount), and the DOM element.
- `formatFileSize` is not modelled, because it is floating-point formatting.
- `parseInt` is an oracle. `Layout.ParseDigits` covers plain digit strings only; leading whitespace, signs, hexadecimal prefixes and trailing junk are not modelled.
- `toLowerCase` is modelled for ASCII letters only. This does not change the image and video tests. The Kelvin sign lowercases to `k`, which no extension contains. `İ` lowercases to `i` plus a combining dot, and the dot breaks any match.
- Sizes, type tags and column counts are unbounded integers. Fractional or NaN column counts are not modelled.
- `getFileDetail` is not modelled, because nothing calls it.
- Asynchronous interleavings are not modelled: overlapping loads, and the separate `loading` flags of each composable. Each call is one atomic step.
- AlistApi.ListFiles: states only the final flags. It does not state that `loading` is true while the request is in flight, because the call is atomic here.
- AlistApi.GetDownloadUrl: states only the final flags, for the same reason.
- AlistApi.ListFiles: a reply whose `data` is null is not modelled. In the code, reading its `content` throws, and the error is caught like any other.
- AlistApi.GetDownloadUrl: a code-200 reply whose `data` is null is not modelled. In the code, reading its `raw_url` throws, so the call gives no URL and sets an error; the model's reply always carries `data`, so it gives a URL for every code-200 reply.
- AlistApi.AwaitAll: when several HEIC conversions fail, `Promise.all` reports the first one to fail in time. The model reports the first in list order.
- AlistApi.RewriteAll: inherits the choice of `AlistApi.AwaitAll`: the reported conversion failure is the first in list order, not the first in time.
- AlistApi.SignedDownloadUrl: an absent `sign` is rendered as `undefined`. A `sign` that the service sends as JSON `null` would render as `null`; the model does not tell the two apart.
- Preview.HandleFileClick: the `catch` branch that returns an error kind is not modelled. Nothing inside that `try` rejects: the download lookup catches its own errors, and so does the player set-up.
- `loadFiles` catches a rejection of `listFiles`, and the model keeps that branch (`FileList.Rejected`). `listFiles` rejects only when a HEIC conversion rejects with `undefined` or `null`, which the model does not express (next line), so the branch cannot happen when the two are composed in the model.
- AlistApi.ListFiles: a HEIC conversion that rejects with `undefined` or `null` is not modelled. In the code, reading `e.message` in the catch then throws, so `listFiles` itself rejects; `loadFiles` keeps the old entries and sets its own error `加载文件列表失败`. `AlistApi.ConversionFailed(None)` stands only for an error object without a message, which gives no listing and the default message.
- The `if (!match) return` check after the prefix test is dead code, because `(.*)` matches an empty rest. No outcome corresponds to it.
- Vue watchers are explicit functions of the value before and after a change (`FileList.PersistPath`, `Layout.Persist`). The watcher runs triggered by the assignments in `onMounted` are not chained onto `Restore`. Those runs write back the layout just read, and any restored column count other than 3 as `columns.toString()`, so a stored `"05"` becomes `"5"`; a restored list layout leaves the stored column count alone.

=== FILE: alist_api.dfy ===
/** The client of the listing service: the request headers, the directory
    listing with its post-processing of image entries, and the download-URL
    lookup. Each call is atomic; the service reply and the HEIC-to-JPEG
    conversion are oracles. */
module AlistApi {
  import opened JsText
  import opened FileTypes
  import opened FileUtils

  const ListFailedMessage := "获取文件列表失败"
  const DownloadFailedMessage := "获取下载链接失败"
  const DefaultPage := 1
  const DefaultPerPage := 100

  /** The flags a call leaves behind. */
  datatype Flags = Flags(loading: bool, error: Option<string>)

  /** The body of a listing request. */
  datatype ListRequest = ListRequest(path: string, password: string, page: int, perPage: int, refresh: bool)

  /** What the HEIC conversion gave: a new URL, or a rejection with an error
      object whose message may be absent. A rejection with `undefined` or
      `null` itself is not expressed. */
  datatype Heic = Converted(url: string) | ConversionFailed(message: Option<string>)

  /** One entry after post-processing, or the error that stopped it. */
  datatype Rewritten = Entry(item: FileItem) | EntryFailed(message: Option<string>)

  /** All entries after post-processing, or the first error met. */
  datatype Rewrites = AllRewritten(items: seq<FileItem>) | RewriteFailed(message: Option<string>)

  /** The outcome of a listing call: the request sent, the flags left
      behind, and the listing returned (absent on failure). */
  datatype ListOutcome = ListOutcome(request: ListRequest, flags: Flags, data: Option<FsList>)

  /** The outcome of a download lookup: the flags left behind and the URL. */
  datatype DownloadOutcome = DownloadOutcome(flags: Flags, url: Option<string>)

  /** The request headers: a bearer token when one is configured. */
  function RequestHeaders(token: string): (r: seq<Header>)
    ensures |r| == 2 && r[0].0 == "Authorization" && r[1] == ("Content-Type", "application/json")
    ensures token == "" ==> r[0].1 == ""
    ensures token != "" ==> StartsWith(r[0].1, "Bearer ") && r[0].1[7..] == token
  {
    [("Authorization", if token != "" then "Bearer " + token else ""),
     ("Content-Type", "application/json")]
  }

  /** The only listing request the browser sends: first page, 100 entries. */
  function ListRequestFor(path: string): ListRequest {
    ListRequest(path, "", DefaultPage, DefaultPerPage, false)
  }

  /** The signed download URL of an entry; an absent signature is rendered as
      the text `undefined`. */
  function SignedDownloadUrl(baseUrl: string, path: string, f: FileItem): string {
    baseUrl + "/d" + path + "/" + f.name + "?sign=" + Interpolate(f.sign)
  }

  /** An image entry with neither a thumbnail nor a raw URL. */
  predicate NeedsRawUrl(f: FileItem) {
    IsImage(f) && !Truthy(f.thumb) && !Truthy(f.rawUrl)
  }

  predicate IsHeicName(name: string) {
    EndsWith(ToLower(name), ".heic")
  }

  /** Post-processing of one entry: an image with neither thumbnail nor raw
      URL gets a raw URL — the HEIC conversion of its signed download URL for
      `.heic` names, the relayed signed download URL otherwise. */
  function RewriteEntry(baseUrl: string, path: string, f: FileItem, heic: string -> Heic): (r: Rewritten)
    ensures !NeedsRawUrl(f) ==> r == Entry(f)
    ensures NeedsRawUrl(f) && !IsHeicName(f.name) ==>
              r == Entry(f.(rawUrl := Some(ConvertToProxyUrl(SignedDownloadUrl(baseUrl, path, f)))))
    ensures NeedsRawUrl(f) && IsHeicName(f.name) ==>
              match heic(SignedDownloadUrl(baseUrl, path, f))
              case Converted(u) => r == Entry(f.(rawUrl := Some(u)))
              case ConversionFailed(m) => r == EntryFailed(m)
    ensures r.Entry? ==> r.item.(rawUrl := f.rawUrl) == f
  {
    if !NeedsRawUrl(f) then Entry(f)
    else
      var signed := SignedDownloadUrl(baseUrl, path, f);
      if IsHeicName(f.name) then
        match heic(signed)
        case Converted(u) => Entry(f.(rawUrl := Some(u)))
        case ConversionFailed(m) => EntryFailed(m)
      else Entry(f.(rawUrl := Some(ConvertToProxyUrl(signed))))
  }

  /** `Promise.all` over per-entry results: every item when each entry
      succeeded, otherwise the error of the first failing entry in list order. */
  function AwaitAll(rs: seq<Rewritten>): (r: Rewrites)
    ensures r.AllRewritten? <==> forall i :: 0 <= i < |rs| ==> rs[i].Entry?
    ensures r.AllRewritten? ==> |r.items| == |rs| && forall i :: 0 <= i < |rs| ==> rs[i] == Entry(r.items[i])
    ensures r.RewriteFailed? ==>
              exists i :: 0 <= i < |rs| && rs[i] == EntryFailed(r.message) && forall j :: 0 <= j < i ==> rs[j].Entry?
  {
    if rs == [] then AllRewritten([])
    else
      match rs[0]
      case EntryFailed(m) => RewriteFailed(m)
      case Entry(item) =>
        var rest := AwaitAll(rs[1..]);
        assert forall i :: 1 <= i < |rs| ==> rs[i] == rs[1..][i - 1];
        match rest
        case AllRewritten(items) => AllRewritten([item] + items)
        case RewriteFailed(m) =>
          assert exists i :: 0 <= i < |rs| && rs[i] == EntryFailed(m) && forall j :: 0 <= j < i ==> rs[j].Entry? by {
            var k :| 0 <= k < |rs[1..]| && rs[1..][k] == EntryFailed(m) && forall j :: 0 <= j < k ==> rs[1..][j].Entry?;
            assert rs[k + 1] == EntryFailed(m);
          }
          RewriteFailed(m)
  }

  /** The post-processing of each entry, one result per entry. */
  function EntryResults(baseUrl: string, path: string, fs: seq<FileItem>, heic: string -> Heic): (rs: seq<Rewritten>)
    ensures |rs| == |fs|
    ensures forall i :: 0 <= i < |fs| ==> rs[i] == RewriteEntry(baseUrl, path, fs[i], heic)
  {
    if fs == [] then []
    else
      var rest := EntryResults(baseUrl, path, fs[1..], heic);
      assert forall i :: 1 <= i < |fs| ==> fs[i] == fs[1..][i - 1];
      [RewriteEntry(baseUrl, path, fs[0], heic)] + rest
  }

  /** Post-processing of every entry, in order; the first failing entry's
      error stops it. */
  function RewriteAll(baseUrl: string, path: string, fs: seq<FileItem>, heic: string -> Heic): (r: Rewrites)
    ensures r.AllRewritten? <==> forall i :: 0 <= i < |fs| ==> RewriteEntry(baseUrl, path, fs[i], heic).Entry?
    ensures r.AllRewritten? ==>
              && |r.items| == |fs|
              && forall i :: 0 <= i < |fs| ==> RewriteEntry(baseUrl, path, fs[i], heic) == Entry(r.items[i])
    ensures r.RewriteFailed? ==>
              exists i :: 0 <= i < |fs| && RewriteEntry(baseUrl, path, fs[i], heic) == EntryFailed(r.message)
                          && forall j :: 0 <= j < i ==> RewriteEntry(baseUrl, path, fs[j], heic).Entry?
  {
    var rs := EntryResults(baseUrl, path, fs, heic);
    var r := AwaitAll(rs);
    assert r.RewriteFailed? ==>
             exists i :: 0 <= i < |fs| && RewriteEntry(baseUrl, path, fs[i], heic) == EntryFailed(r.message)
                         && forall j :: 0 <= j < i ==> RewriteEntry(baseUrl, path, fs[j], heic).Entry? by {
      if r.RewriteFailed? {
        var k :| 0 <= k < |rs| && rs[k] == EntryFailed(r.message) && forall j :: 0 <= j < k ==> rs[j].Entry?;
        assert RewriteEntry(baseUrl, path, fs[k], heic) == EntryFailed(r.message);
      }
    }
    r
  }

  /** Post-processing keeps the number and order of entries and changes at
      most the raw URL of each. */
  lemma RewriteKeepsEntries(baseUrl: string, path: string, fs: seq<FileItem>, heic: string -> Heic)
    requires RewriteAll(baseUrl, path, fs, heic).AllRewritten?
    ensures var items := RewriteAll(baseUrl, path, fs, heic).items;
            |items| == |fs| && forall i :: 0 <= i < |fs| ==> items[i].(rawUrl := fs[i].rawUrl) == fs[i]
  {
    var items := RewriteAll(baseUrl, path, fs, heic).items;
    forall i | 0 <= i < |fs|
      ensures items[i].(rawUrl := fs[i].rawUrl) == fs[i]
    {
      assert RewriteEntry(baseUrl, path, fs[i], heic) == Entry(items[i]);
    }
  }

  /** Without HEIC entries to convert, post-processing cannot fail, and every
      entry that needed a raw URL now holds a relay URL. */
  lemma RewriteWithoutHeic(baseUrl: string, path: string, fs: seq<FileItem>, heic: string -> Heic)
    requires forall i :: 0 <= i < |fs| ==> !(NeedsRawUrl(fs[i]) && IsHeicName(fs[i].name))
    ensures RewriteAll(baseUrl, path, fs, heic).AllRewritten?
    ensures forall i :: 0 <= i < |fs| && NeedsRawUrl(fs[i]) ==>
              var u := RewriteAll(baseUrl, path, fs, heic).items[i].rawUrl;
              u.Some? && StartsWith(u.value, ProxyPrefix)
  {
    forall i | 0 <= i < |fs|
      ensures RewriteEntry(baseUrl, path, fs[i], heic).Entry?
    {
    }
  }

  /** The directory listing. A rejected request or a reply code other than
      200 yields no listing and an error message (the reply's message or a
      default); absent content is passed through untouched; otherwise the
      entries are post-processed, and a failed HEIC conversion fails the
      whole call. Loading is cleared in every outcome. */
  function ListFiles(baseUrl: string, path: string, fetch: ListRequest -> Reply<FsList>,
                     heic: string -> Heic): (r: ListOutcome)
    ensures r.request == ListRequestFor(path) && r.request.page == 1 && r.request.perPage == 100
    ensures !r.flags.loading
    ensures r.data.None? <==> r.flags.error.Some?
    ensures r.flags.error.Some? ==> r.flags.error.value != ""
    ensures fetch(r.request).Rejected? ==> r.flags.error == Some(Or(fetch(r.request).error, ListFailedMessage))
    ensures fetch(r.request).Reply? && fetch(r.request).code != 200 ==>
              r.flags.error == Some(Or(Some(fetch(r.request).message), ListFailedMessage))
    ensures r.data.Some? ==>
              && fetch(r.request).Reply? && fetch(r.request).code == 200
              && r.data.value.(content := fetch(r.request).data.content) == fetch(r.request).data
    ensures fetch(r.request).Reply? && fetch(r.request).code == 200 && fetch(r.request).data.content.None? ==>
              r.data == Some(fetch(r.request).data)
    ensures r.data.Some? && r.data.value.content.Some? ==>
              var before := fetch(r.request).data.content;
              before.Some? && RewriteAll(baseUrl, path, before.value, heic) == AllRewritten(r.data.value.content.value)
    ensures fetch(r.request).Reply? && fetch(r.request).code == 200 && fetch(r.request).data.content.Some? ==>
              match RewriteAll(baseUrl, path, fetch(r.request).data.content.value, heic)
              case AllRewritten(items) => r.data == Some(fetch(r.request).data.(content := Some(items)))
              case RewriteFailed(m) => r.data == None && r.flags.error == Some(Or(m, ListFailedMessage))
  {
    var req := ListRequestFor(path);
    match fetch(req)
    case Rejected(e) => ListOutcome(req, Flags(false, Some(Or(e, ListFailedMessage))), None)
    case Reply(code, message, data) =>
      if code != 200 then
        ListOutcome(req, Flags(false, Some(Or(Some(message), ListFailedMessage))), None)
      else if data.content.None? then
        ListOutcome(req, Flags(false, None), Some(data))
      else
        match RewriteAll(baseUrl, path, data.content.value, heic)
        case AllRewritten(items) => ListOutcome(req, Flags(false, None), Some(data.(content := Some(items))))
        case RewriteFailed(e) => ListOutcome(req, Flags(false, Some(Or(e, ListFailedMessage))), None)
  }

  /** The download URL of a path: the raw URL when the reply has a truthy one,
      the plain URL otherwise; nothing, and an error message, when the request
      is rejected or the code is not 200. */
  function GetDownloadUrl(path: string, fetch: string -> Reply<FsGet>): (r: DownloadOutcome)
    ensures !r.flags.loading
    ensures r.url.Some? <==> fetch(path).Reply? && fetch(path).code == 200
    ensures r.url.None? <==> r.flags.error.Some?
    ensures r.flags.error.Some? ==> r.flags.error.value != ""
    ensures r.url.Some? && Truthy(fetch(path).data.rawUrl) ==> r.url.value == fetch(path).data.rawUrl.value
    ensures r.url.Some? && !Truthy(fetch(path).data.rawUrl) ==> r.url.value == fetch(path).data.url
    ensures fetch(path).Reply? && fetch(path).code != 200 ==>
              r.flags.error == Some(Or(Some(fetch(path).message), DownloadFailedMessage))
    ensures fetch(path).Rejected? ==> r.flags.error == Some(Or(fetch(path).error, DownloadFailedMessage))
  {
    match fetch(path)
    case Rejected(e) => DownloadOutcome(Flags(false, Some(Or(e, DownloadFailedMessage))), None)
    case Reply(code, message, data) =>
      if code != 200 then DownloadOutcome(Flags(false, Some(Or(Some(message), DownloadFailedMessage))), None)
      else DownloadOutcome(Flags(false, None), Some(Or(data.rawUrl, data.url)))
  }
}

=== FILE: file_list.dfy ===
/** The file-list state of the browser: the current directory, the entries on
    show, and the loading and error flags, with the navigation operations that
    change them. Each operation runs to completion; the listing call is an
    oracle from a path to what it delivered. */
module FileList {
  import opened JsText
  import opened FileTypes
  import opened Paths

  /** The storage key under which the last visited path is kept. */
  const LastPathKey := "alist-last-path"

  /** The message shown when the listing call itself rejects. */
  const LoadFailedMessage := "加载文件列表失败"

  datatype State = State(
    currentPath: string,
    files: seq<FileItem>,
    loading: bool,
    error: Option<string>)

  /** What awaiting the listing call gave: its result (absent when the listing
      failed), or a rejection. */
  datatype ListCall = Returned(data: Option<FsList>) | Rejected

  /** The state after a navigation step, and the path whose listing was
      requested, if any. */
  datatype Nav = Nav(state: State, fetched: Option<string>)

  const Initial := State(Root, [], false, None)

  /** The entries a returned listing puts on show. */
  function Delivered(data: Option<FsList>): seq<FileItem> {
    if data.Some? && data.value.content.Some? then data.value.content.value else []
  }

  /** Applies one listing call to the state: a returned listing replaces the
      entries (an absent listing or absent content clears them) and clears the
      error; a rejection keeps the entries and records the failure. */
  function LoadFiles(s: State, call: ListCall): (r: State)
    ensures r.currentPath == s.currentPath
    ensures !r.loading
    ensures call.Returned? ==> r.error == None
    ensures call.Returned? && call.data.Some? && call.data.value.content.Some? ==>
              r.files == call.data.value.content.value
    ensures call.Returned? && (call.data.None? || call.data.value.content.None?) ==> r.files == []
    ensures call.Rejected? ==> r.files == s.files && r.error == Some(LoadFailedMessage)
  {
    match call
    case Returned(data) => s.(files := Delivered(data), loading := false, error := None)
    case Rejected => s.(loading := false, error := Some(LoadFailedMessage))
  }

  /** Moves to `path` exactly as given and loads its listing. */
  function NavigateTo(s: State, path: string, list: string -> ListCall): (r: Nav)
    ensures r.state.currentPath == path
    ensures r.fetched == Some(path)
    ensures r.state == LoadFiles(s.(currentPath := path), list(path))
  {
    Nav(LoadFiles(s.(currentPath := path), list(path)), Some(path))
  }

  /** At the root nothing happens; elsewhere the browser moves to the parent
      directory and loads it. */
  function NavigateBack(s: State, list: string -> ListCall): (r: Nav)
    ensures s.currentPath == Root ==> r == Nav(s, None)
    ensures s.currentPath != Root ==>
              && r.fetched == Some(r.state.currentPath)
              && Canonical(r.state.currentPath)
              && !r.state.loading
    ensures s.currentPath != Root && |Segments(s.currentPath)| > 0 ==>
              Segments(r.state.currentPath) == Segments(s.currentPath)[..|Segments(s.currentPath)| - 1]
    ensures s.currentPath != Root && |Segments(s.currentPath)| == 0 ==>
              r.state.currentPath == Root
  {
    if s.currentPath == Root then Nav(s, None)
    else
      var parent := ParentPath(s.currentPath);
      Nav(LoadFiles(s.(currentPath := parent), list(parent)), Some(parent))
  }

  /** Going back from anywhere but the root is navigating to the parent. */
  lemma BackIsNavigateToParent(s: State, list: string -> ListCall)
    requires s.currentPath != Root
    ensures NavigateBack(s, list) == NavigateTo(s, ParentPath(s.currentPath), list)
  {
  }

  /** Going back never leaves the root, and otherwise shortens the path by
      exactly one segment, so repeated steps reach the root. */
  lemma BackShortens(s: State, list: string -> ListCall)
    requires s.currentPath != Root
    ensures var n := |Segments(s.currentPath)|;
            |Segments(NavigateBack(s, list).state.currentPath)| == if n > 0 then n - 1 else 0
  {
    var p := NavigateBack(s, list).state.currentPath;
    if |Segments(s.currentPath)| == 0 {
      SegmentsOfFromSegments([]);
      assert p == FromSegments([]);
    }
  }

  /** Entering a child directory of a canonical path and going back returns
      to that path. */
  lemma BackFromChild(s: State, x: string, list: string -> ListCall)
    requires Canonical(s.currentPath) && IsSegment(x)
    ensures var child := NavigateTo(s, s.currentPath + "/" + x, list).state;
            NavigateBack(child, list).state.currentPath == s.currentPath
  {
    var c := s.currentPath + "/" + x;
    assert c != Root by {
      assert |c| >= 3;
    }
    ParentOfChild(s.currentPath, x);
  }

  /** The starting directory: the stored last path when one is stored and not
      empty, the root otherwise. */
  function InitialPath(stored: Option<string>): (r: string)
    ensures Truthy(stored) ==> r == stored.value
    ensures !Truthy(stored) ==> r == Root
    ensures r != ""
  {
    if Truthy(stored) then stored.value else Root
  }

  /** Start-up: adopt the stored last path, then load it. */
  function Mount(store: Store, list: string -> ListCall): (r: Nav)
    ensures LastPathKey !in store || store[LastPathKey] == "" ==> r.state.currentPath == Root
    ensures LastPathKey in store && store[LastPathKey] != "" ==> r.state.currentPath == store[LastPathKey]
    ensures r.fetched == Some(r.state.currentPath)
    ensures !r.state.loading
    ensures r.state == LoadFiles(Initial.(currentPath := r.state.currentPath), list(r.state.currentPath))
  {
    var stored := if LastPathKey in store then Some(store[LastPathKey]) else None;
    var path := InitialPath(stored);
    Nav(LoadFiles(Initial.(currentPath := path), list(path)), Some(path))
  }

  /** The path watcher: a changed current path is written to storage. */
  function PersistPath(before: string, after: string, store: Store): (r: Store)
    ensures before != after ==> LastPathKey in r && r[LastPathKey] == after
    ensures before == after ==> r == store
    ensures forall k :: k in store && k != LastPathKey ==> k in r && r[k] == store[k]
    ensures forall k :: k in r ==> k in store || k == LastPathKey
  {
    if before != after then store[LastPathKey := after] else store
  }

  /** A path persisted on navigation is the one the next start-up resumes at. */
  lemma PersistThenMount(s: State, target: string, store: Store, list: string -> ListCall)
    requires s.currentPath != target && target != ""
    ensures Mount(PersistPath(s.currentPath, target, store), list).state.currentPath == target
  {
  }
}

=== FILE: file_types.dfy ===
/** The records the browser client exchanges with the listing service, and the
    layout choice of the file view. */
module FileTypes {
  import opened JsText

  /** An HTTP header: name and value. */
  type Header = (string, string)

  /** Browser storage: string values under string keys. */
  type Store = map<string, string>

  /** One entry of a directory listing. `kind` is the service's numeric type
      tag; `sign`, `thumb` and `rawUrl` may be absent. */
  datatype FileItem = FileItem(
    name: string,
    size: int,
    isDir: bool,
    modified: string,
    sign: Option<string>,
    thumb: Option<string>,
    kind: int,
    rawUrl: Option<string>)

  /** The `data` part of a directory-listing reply; `content` is absent for
      some empty directories. */
  datatype FsList = FsList(
    content: Option<seq<FileItem>>,
    total: int,
    readme: string,
    write: bool,
    provider: string)

  /** The `data` part of a file-detail reply. */
  datatype FsGet = FsGet(name: string, url: string, rawUrl: Option<string>)

  /** An envelope from the listing service: a reply carrying a status code, or
      a rejected request whose error may carry a message. */
  datatype Reply<T> =
    | Reply(code: int, message: string, data: T)
    | Rejected(error: Option<string>)

  /** The two ways the file view can be laid out. */
  datatype Layout = Grid | List
}

=== FILE: file_utils.dfy ===
/** File-kind classification by name suffix and the rewriting of a URL onto
    the same-origin relay. */
module FileUtils {
  import opened JsText
  import opened FileTypes

  const ImageExts: seq<string> := [".jpg", ".jpeg", ".png", ".gif", ".webp", ".heic", ".heif"]
  const VideoExts: seq<string> := [".mp4", ".webm", ".ogg", ".m4v", ".mov"]

  /** The path prefix under which the relay serves upstream URLs. */
  const ProxyPrefix := "/proxy/"

  /** `exts.some(ext => s.endsWith(ext))`. */
  function EndsWithAny(s: string, exts: seq<string>): (r: bool)
    ensures r <==> exists i :: 0 <= i < |exts| && EndsWith(s, exts[i])
  {
    if exts == [] then false
    else
      var tail := EndsWithAny(s, exts[1..]);
      assert tail ==> exists i :: 0 <= i < |exts| && EndsWith(s, exts[i]) by {
        if tail {
          var j :| 0 <= j < |exts[1..]| && EndsWith(s, exts[1..][j]);
          assert EndsWith(s, exts[j + 1]);
        }
      }
      EndsWith(s, exts[0]) || tail
  }

  predicate IsImageName(name: string) {
    EndsWithAny(ToLower(name), ImageExts)
  }

  predicate IsVideoName(name: string) {
    EndsWithAny(ToLower(name), VideoExts)
  }

  /** A non-directory whose lower-cased name ends with an image extension. */
  function IsImage(f: FileItem): (r: bool)
    ensures f.isDir ==> !r
    ensures !f.isDir ==> (r <==> exists i :: 0 <= i < |ImageExts| && EndsWith(ToLower(f.name), ImageExts[i]))
  {
    !f.isDir && IsImageName(f.name)
  }

  /** A non-directory whose lower-cased name ends with a video extension. */
  function IsVideo(f: FileItem): (r: bool)
    ensures f.isDir ==> !r
    ensures !f.isDir ==> (r <==> exists i :: 0 <= i < |VideoExts| && EndsWith(ToLower(f.name), VideoExts[i]))
  {
    !f.isDir && IsVideoName(f.name)
  }

  /** `/proxy/${url}`: the relay path whose remainder is `url`. */
  function ConvertToProxyUrl(url: string): (r: string)
    ensures StartsWith(r, ProxyPrefix)
    ensures |r| == |url| + |ProxyPrefix|
    ensures r[|ProxyPrefix|..] == url
  {
    ProxyPrefix + url
  }

  /** The last two characters of a string of length at least two. */
  function LastTwo(s: string): string
    requires |s| >= 2
  {
    s[|s| - 2..]
  }

  /** A string ending with two suffixes ends with the last two characters of each. */
  lemma SharedEnding(s: string, a: string, b: string)
    requires |a| >= 2 && |b| >= 2
    requires EndsWith(s, a) && EndsWith(s, b)
    ensures LastTwo(a) == LastTwo(b)
  {
    assert LastTwo(a) == s[|s| - 2..];
    assert LastTwo(b) == s[|s| - 2..];
  }

  lemma ImageEndings(i: nat)
    requires i < |ImageExts|
    ensures LastTwo(ImageExts[i]) in ["pg", "eg", "ng", "if", "bp", "ic"]
  {
  }

  lemma VideoEndings(j: nat)
    requires j < |VideoExts|
    ensures LastTwo(VideoExts[j]) in ["p4", "bm", "gg", "4v", "ov"]
  {
  }

  lemma EndingListsDisjoint(e: string)
    requires e in ["pg", "eg", "ng", "if", "bp", "ic"]
    ensures e !in ["p4", "bm", "gg", "4v", "ov"]
  {
  }

  lemma EndingsDiffer(i: nat, j: nat)
    requires i < |ImageExts| && j < |VideoExts|
    ensures LastTwo(ImageExts[i]) != LastTwo(VideoExts[j])
  {
    ImageEndings(i);
    VideoEndings(j);
    EndingListsDisjoint(LastTwo(ImageExts[i]));
  }

  /** Two suffix lists whose members all differ in their last two characters
      never both match the same string. */
  lemma NoStringMatchesBoth(low: string, a: seq<string>, b: seq<string>)
    requires forall i :: 0 <= i < |a| ==> |a[i]| >= 2
    requires forall j :: 0 <= j < |b| ==> |b[j]| >= 2
    requires forall i, j :: 0 <= i < |a| && 0 <= j < |b| ==> LastTwo(a[i]) != LastTwo(b[j])
    ensures !(EndsWithAny(low, a) && EndsWithAny(low, b))
  {
    if EndsWithAny(low, a) && EndsWithAny(low, b) {
      var i :| 0 <= i < |a| && EndsWith(low, a[i]);
    }
  }

  /** No file is classified both as an image and as a video. */
  lemma ImageNeverVideo(f: FileItem)
    ensures !(IsImage(f) && IsVideo(f))
  {
    forall i, j | 0 <= i < |ImageExts| && 0 <= j < |VideoExts|
      ensures LastTwo(ImageExts[i]) != LastTwo(VideoExts[j])
    {
      EndingsDiffer(i, j);
    }
    NoStringMatchesBoth(ToLower(f.name), ImageExts, VideoExts);
  }

  /** Classification reads only the name and the directory flag. */
  lemma ClassificationIgnoresOtherFields(f: FileItem, g: FileItem)
    requires f.name == g.name && f.isDir == g.isDir
    ensures IsImage(f) == IsImage(g) && IsVideo(f) == IsVideo(g)
  {
  }

  /** Concrete classifications: case does not matter, a directory is never
      media, and the extension must be at the very end. */
  lemma ClassificationExamples()
    ensures IsImage(FileItem("Photo.JPG", 0, false, "", None, None, 0, None))
    ensures !IsImage(FileItem("album.jpg", 0, true, "", None, None, 0, None))
    ensures !IsImage(FileItem("a.jpg.txt", 0, false, "", None, None, 0, None))
    ensures IsVideo(FileItem("clip.MoV", 0, false, "", None, None, 0, None))
  {
    assert ToLower("Photo.JPG") == "photo.jpg";
    assert EndsWith("photo.jpg", ImageExts[0]);
    assert ToLower("clip.MoV") == "clip.mov";
    assert EndsWith("clip.mov", VideoExts[4]);
    var low := ToLower("a.jpg.txt");
    assert low == "a.jpg.txt";
    assert LastTwo(low) == "xt";
    forall i | 0 <= i < |ImageExts|
      ensures !EndsWith(low, ImageExts[i])
    {
      if EndsWith(low, ImageExts[i]) {
        SharedEnding(low, low, ImageExts[i]);
      }
    }
  }
}

=== FILE: js_text.dfy ===
/** Precise meanings for the JavaScript string operations and truthiness rules
    the browser client relies on: optional values, `||`, template
    interpolation, `startsWith`/`endsWith`, `toLowerCase`, `split`,
    `filter(Boolean)`, `join` and the `.` of a regular expression. */
module JsText {

  /** A value that may be absent (`None`). Truthiness treats `undefined` and
      `null` alike; template interpolation renders `None` as `undefined`. */
  datatype Option<+T> = None | Some(value: T)

  /** JavaScript truthiness of an optional string: `undefined`, `null` and the
      empty string are falsy, every other string is truthy. */
  predicate Truthy(o: Option<string>) {
    o.Some? && o.value != ""
  }

  /** `a || b` where `a` is an optional string. */
  function Or(a: Option<string>, b: string): string {
    if Truthy(a) then a.value else b
  }

  /** The template interpolation `${o}` of an optional string, with an
      absent value taken to be `undefined`. */
  function Interpolate(o: Option<string>): string {
    match o
    case Some(s) => s
    case None => "undefined"
  }

  predicate StartsWith(s: string, prefix: string) {
    |prefix| <= |s| && s[..|prefix|] == prefix
  }

  predicate EndsWith(s: string, suffix: string) {
    |suffix| <= |s| && s[|s| - |suffix|..] == suffix
  }

  /** Lower-casing of one character, restricted to the ASCII letters. */
  function LowerChar(c: char): char {
    if 'A' <= c <= 'Z' then (c as int + 32) as char else c
  }

  function ToLower(s: string): string {
    seq(|s|, i requires 0 <= i < |s| => LowerChar(s[i]))
  }

  /** The characters a regular-expression `.` refuses to match. */
  predicate IsLineTerminator(c: char) {
    c == '\n' || c == '\r' || c == '\U{2028}' || c == '\U{2029}'
  }

  predicate SingleLine(s: string) {
    forall i :: 0 <= i < |s| ==> !IsLineTerminator(s[i])
  }

  /** What a greedy `(.*)` captures when it starts at the beginning of `s`:
      the longest prefix of `s` holding no line terminator. */
  function TakeLine(s: string): (r: string)
    ensures r <= s
    ensures SingleLine(r)
    ensures |r| < |s| ==> IsLineTerminator(s[|r|])
  {
    if s == [] || IsLineTerminator(s[0]) then []
    else [s[0]] + TakeLine(s[1..])
  }

  /** A string free of line terminators is captured whole. */
  lemma {:induction false} TakeLineOfSingleLine(s: string)
    requires SingleLine(s)
    ensures TakeLine(s) == s
    decreases |s|
  {
    if s != [] {
      assert SingleLine(s[1..]) by {
        forall i | 0 <= i < |s[1..]|
          ensures !IsLineTerminator(s[1..][i])
        {
          assert s[1..][i] == s[i + 1];
        }
      }
      TakeLineOfSingleLine(s[1..]);
      assert s == [s[0]] + s[1..];
    }
  }

  /** `s.split(sep)` for a one-character separator: the pieces between
      separators, including empty ones, and `[""]` for the empty string. */
  function Split(s: string, sep: char): (r: seq<string>)
    ensures |r| >= 1
    ensures forall i :: 0 <= i < |r| ==> sep !in r[i]
    decreases |s|
  {
    if s == [] then [""]
    else
      var rest := Split(s[1..], sep);
      if s[0] == sep then [""] + rest
      else [[s[0]] + rest[0]] + rest[1..]
  }

  /** A non-empty string that neither starts nor ends with the separator and
      never doubles it splits into non-empty pieces only. */
  lemma {:induction false} SplitPiecesNonEmpty(s: string, sep: char)
    requires |s| >= 1 && s[0] != sep && s[|s| - 1] != sep
    requires forall i :: 0 <= i < |s| - 1 ==> !(s[i] == sep && s[i + 1] == sep)
    ensures forall i :: 0 <= i < |Split(s, sep)| ==> Split(s, sep)[i] != ""
    decreases |s|
  {
    var rest := Split(s[1..], sep);
    if |s| > 1 {
      var t := s[1..];
      if t[0] != sep {
        forall i | 0 <= i < |t| - 1
          ensures !(t[i] == sep && t[i + 1] == sep)
        {
          assert t[i] == s[i + 1] && t[i + 1] == s[i + 2];
        }
        SplitPiecesNonEmpty(t, sep);
      } else {
        var u := t[1..];
        assert s[2..] == u;
        assert t[0] == s[1];
        assert u[0] != sep by {
          assert !(s[1] == sep && s[2] == sep);
        }
        forall i | 0 <= i < |u| - 1
          ensures !(u[i] == sep && u[i + 1] == sep)
        {
          assert u[i] == s[i + 2] && u[i + 1] == s[i + 3];
        }
        SplitPiecesNonEmpty(u, sep);
        assert rest == [""] + Split(u, sep);
        assert rest[1..] == Split(u, sep);
      }
    }
  }

  /** `xs.filter(Boolean)` on strings: the non-empty elements, in order. */
  function FilterNonEmpty(xs: seq<string>): (r: seq<string>)
    ensures forall i :: 0 <= i < |r| ==> r[i] != "" && r[i] in xs
    ensures forall x :: x != "" ==> multiset(r)[x] == multiset(xs)[x]
    ensures (forall i :: 0 <= i < |xs| ==> xs[i] != "") ==> r == xs
  {
    if xs == [] then []
    else
      var rest := FilterNonEmpty(xs[1..]);
      assert xs == [xs[0]] + xs[1..];
      assert multiset(xs) == multiset([xs[0]]) + multiset(xs[1..]);
      if xs[0] == "" then rest
      else
        assert multiset([xs[0]] + rest) == multiset([xs[0]]) + multiset(rest);
        [xs[0]] + rest
  }

  /** Filtering distributes over concatenation, so the kept elements stay in
      their original order. */
  lemma {:induction false} FilterConcat(a: seq<string>, b: seq<string>)
    ensures FilterNonEmpty(a + b) == FilterNonEmpty(a) + FilterNonEmpty(b)
    decreases |a|
  {
    if a == [] {
      assert a + b == b;
    } else {
      assert (a + b)[0] == a[0];
      assert (a + b)[1..] == a[1..] + b;
      FilterConcat(a[1..], b);
    }
  }

  /** `xs.join(sep)`. */
  function Join(xs: seq<string>, sep: string): string {
    if |xs| == 0 then ""
    else if |xs| == 1 then xs[0]
    else xs[0] + sep + Join(xs[1..], sep)
  }

  /** Splitting at a separator placed between two strings splits each of
      them independently. */
  lemma {:induction false} SplitConcat(a: string, b: string, sep: char)
    ensures Split(a + [sep] + b, sep) == Split(a, sep) + Split(b, sep)
    decreases |a|
  {
    if a == [] {
      assert a + [sep] + b == [sep] + b;
      SplitAfterSeparator(b, sep);
    } else {
      var t := a[1..] + [sep] + b;
      assert a + [sep] + b == [a[0]] + t;
      assert a == [a[0]] + a[1..];
      SplitConcat(a[1..], b, sep);
      if a[0] == sep {
        SplitAfterSeparator(t, sep);
        SplitAfterSeparator(a[1..], sep);
      } else {
        SplitPrefix([a[0]], t, sep);
        SplitPrefix([a[0]], a[1..], sep);
        GlueFirst([a[0]], Split(a[1..], sep), Split(b, sep));
      }
    }
  }

  /** Gluing a string to the first piece commutes with appending more pieces. */
  lemma GlueFirst(c: string, xs: seq<string>, ys: seq<string>)
    requires |xs| >= 1
    ensures [c + (xs + ys)[0]] + (xs + ys)[1..] == ([c + xs[0]] + xs[1..]) + ys
  {
    assert (xs + ys)[0] == xs[0];
    assert (xs + ys)[1..] == xs[1..] + ys;
  }

  /** A leading separator splits off an empty first piece. */
  lemma SplitAfterSeparator(t: string, sep: char)
    ensures Split([sep] + t, sep) == [""] + Split(t, sep)
  {
    assert ([sep] + t)[1..] == t;
  }

  /** A string without the separator is a single piece. */
  lemma SplitWithoutSeparator(x: string, sep: char)
    requires sep !in x
    ensures Split(x, sep) == [x]
  {
    SplitPrefix(x, "", sep);
    assert x + "" == x;
  }

  /** Joining a list extended by one element appends the separator and that element. */
  lemma {:induction false} JoinAppend(xs: seq<string>, x: string, sep: string)
    requires |xs| >= 1
    ensures Join(xs + [x], sep) == Join(xs, sep) + sep + x
    decreases |xs|
  {
    if |xs| > 1 {
      assert (xs + [x])[1..] == xs[1..] + [x];
      JoinAppend(xs[1..], x, sep);
    } else {
      assert (xs + [x])[1..] == [x];
    }
  }

  /** Splitting `a + t` where `a` holds no separator glues `a` to the first piece of `t`. */
  lemma {:induction false} SplitPrefix(a: string, t: string, sep: char)
    requires sep !in a
    ensures Split(a + t, sep) == [a + Split(t, sep)[0]] + Split(t, sep)[1..]
    decreases |a|
  {
    var st := Split(t, sep);
    if a == [] {
      assert a + t == t;
      assert a + st[0] == st[0];
      assert [st[0]] + st[1..] == st;
    } else {
      assert (a + t)[0] == a[0];
      assert (a + t)[1..] == a[1..] + t;
      SplitPrefix(a[1..], t, sep);
      assert [a[0]] + (a[1..] + st[0]) == a + st[0];
    }
  }

  /** Splitting a joined list whose pieces avoid the separator gives the pieces back. */
  lemma {:induction false} SplitJoin(xs: seq<string>, sep: char)
    requires |xs| >= 1
    requires forall i :: 0 <= i < |xs| ==> sep !in xs[i]
    ensures Split(Join(xs, [sep]), sep) == xs
    decreases |xs|
  {
    if |xs| == 1 {
      SplitPrefix(xs[0], "", sep);
      assert xs[0] + "" == xs[0];
    } else {
      var rest := Join(xs[1..], [sep]);
      assert Join(xs, [sep]) == xs[0] + ([sep] + rest);
      SplitPrefix(xs[0], [sep] + rest, sep);
      SplitJoin(xs[1..], sep);
      assert ([sep] + rest)[0] == sep;
      assert ([sep] + rest)[1..] == rest;
      var pieces := Split([sep] + rest, sep);
      assert pieces == [""] + xs[1..];
      assert pieces[0] == "" && pieces[1..] == xs[1..];
      assert xs[0] + "" == xs[0];
      assert xs == [xs[0]] + xs[1..];
    }
  }

  /** Joining the pieces of a split with the same separator restores the string. */
  lemma {:induction false} JoinSplit(s: string, sep: char)
    ensures Join(Split(s, sep), [sep]) == s
    decreases |s|
  {
    if s != [] {
      var rest := Split(s[1..], sep);
      JoinSplit(s[1..], sep);
      assert s == [s[0]] + s[1..];
      if s[0] == sep {
        assert ([""] + rest)[1..] == rest;
      } else if |rest| > 1 {
        var r := [[s[0]] + rest[0]] + rest[1..];
        assert r[1..] == rest[1..];
      }
    }
  }

  lemma PrefixOfConcat(a: string, b: string, c: string)
    requires b <= c
    ensures a + b <= a + c
  {
    assert (a + c)[..|a + b|] == a + c[..|b|];
  }

  /** Joining a prefix of a list gives a prefix of the joined list. */
  lemma {:induction false} JoinPrefix(xs: seq<string>, k: nat, sep: string)
    requires k <= |xs|
    ensures Join(xs[..k], sep) <= Join(xs, sep)
    decreases |xs|
  {
    if k == 0 {
    } else if |xs| == 1 {
      assert xs[..k] == xs;
    } else if k == 1 {
      assert xs[..1] == [xs[0]];
      assert Join(xs, sep) == xs[0] + (sep + Join(xs[1..], sep));
      PrefixOfConcat(xs[0], "", sep + Join(xs[1..], sep));
      assert xs[0] + "" == xs[0];
    } else {
      JoinPrefix(xs[1..], k - 1, sep);
      assert xs[..k][1..] == xs[1..][..k - 1];
      PrefixOfConcat(xs[0] + sep, Join(xs[1..][..k - 1], sep), Join(xs[1..], sep));
    }
  }
}

=== FILE: layout.dfy ===
/** The layout preference of the file view: grid or list, and the number of
    grid columns, with the rules for saving them to storage and restoring
    them at start-up. Storage is a map from keys to strings; the integer
    parse used on restore is an oracle that yields nothing for NaN. */
module Layout {
  import opened JsText
  import opened FileTypes

  const LayoutKey := "alist-layout"
  const ColumnsKey := "alist-grid-columns"
  const DefaultColumns := 3
  const MinColumns := 2
  const MaxColumns := 10

  datatype LayoutState = LayoutState(layout: Layout, columns: int)

  const Default := LayoutState(Grid, DefaultColumns)

  function LayoutName(l: Layout): string {
    match l
    case Grid => "grid"
    case List => "list"
  }

  /** A stored layout name is accepted only when it is exactly `grid` or `list`. */
  function ParseLayout(s: string): (r: Option<Layout>)
    ensures r.Some? <==> s == "grid" || s == "list"
    ensures r.Some? ==> LayoutName(r.value) == s
  {
    if s == "grid" then Some(Grid)
    else if s == "list" then Some(List)
    else None
  }

  lemma LayoutNameRoundTrip(l: Layout)
    ensures ParseLayout(LayoutName(l)) == Some(l)
  {
  }

  /** Switches between grid and list, keeping the column count. */
  function ToggleLayout(s: LayoutState): (r: LayoutState)
    ensures r.layout != s.layout
    ensures r.columns == s.columns
  {
    s.(layout := if s.layout == Grid then List else Grid)
  }

  lemma ToggleTwice(s: LayoutState)
    ensures ToggleLayout(ToggleLayout(s)) == s
  {
  }

  function DigitChar(d: nat): char
    requires d < 10
  {
    "0123456789"[d]
  }

  predicate IsDigit(c: char) {
    '0' <= c <= '9'
  }

  /** The decimal numeral of a natural number, without leading zeros. */
  function NatToDecimal(n: nat): (r: string)
    ensures |r| >= 1
    ensures forall i :: 0 <= i < |r| ==> IsDigit(r[i])
    ensures |r| > 1 ==> r[0] != '0'
    decreases n
  {
    if n < 10 then [DigitChar(n)]
    else NatToDecimal(n / 10) + [DigitChar(n % 10)]
  }

  /** `n.toString()` for an integer `n`. */
  function IntToDecimal(n: int): string {
    if n < 0 then "-" + NatToDecimal(-n) else NatToDecimal(n)
  }

  /** The value of a string of decimal digits. */
  function DigitsValue(s: string): nat
    requires forall i :: 0 <= i < |s| ==> IsDigit(s[i])
  {
    if s == [] then 0
    else
      assert IsDigit(s[|s| - 1]);
      DigitsValue(s[..|s| - 1]) * 10 + (s[|s| - 1] as int - '0' as int)
  }

  /** Reading the decimal numeral of a number gives the number back. */
  lemma {:induction false} DecimalRoundTrip(n: nat)
    ensures DigitsValue(NatToDecimal(n)) == n
    decreases n
  {
    var r := NatToDecimal(n);
    if n < 10 {
      assert r[..|r| - 1] == [];
    } else {
      DecimalRoundTrip(n / 10);
      assert r[..|r| - 1] == NatToDecimal(n / 10);
    }
  }

  /** Writes the layout, and the column count too when the layout is grid. */
  function SaveLayout(s: LayoutState, store: Store): (r: Store)
    ensures LayoutKey in r && r[LayoutKey] == LayoutName(s.layout)
    ensures s.layout == Grid ==> ColumnsKey in r && r[ColumnsKey] == IntToDecimal(s.columns)
    ensures s.layout == List ==>
              (ColumnsKey in r <==> ColumnsKey in store) &&
              (ColumnsKey in store ==> r[ColumnsKey] == store[ColumnsKey])
    ensures forall k :: k in store ==> k in r
    ensures forall k :: k in r && k != LayoutKey && k != ColumnsKey ==> k in store && r[k] == store[k]
  {
    var withLayout := store[LayoutKey := LayoutName(s.layout)];
    if s.layout == Grid then withLayout[ColumnsKey := IntToDecimal(s.columns)] else withLayout
  }

  /** The two watchers: a changed layout saves the layout; a changed column
      count is written only while the layout is grid. */
  function Persist(before: LayoutState, after: LayoutState, store: Store): (r: Store)
    ensures before == after ==> r == store
    ensures before.layout != after.layout ==> LayoutKey in r && r[LayoutKey] == LayoutName(after.layout)
    ensures after.layout == List ==>
              (ColumnsKey in r <==> ColumnsKey in store) &&
              (ColumnsKey in store ==> r[ColumnsKey] == store[ColumnsKey])
    ensures after.layout == Grid && before != after ==>
              ColumnsKey in r && r[ColumnsKey] == IntToDecimal(after.columns)
    ensures before.layout == after.layout ==>
              (LayoutKey in r <==> LayoutKey in store) &&
              (LayoutKey in store ==> r[LayoutKey] == store[LayoutKey])
    ensures forall k :: k in store ==> k in r
    ensures forall k :: k in r && k != LayoutKey && k != ColumnsKey ==> k in store && r[k] == store[k]
  {
    var saved := if before.layout != after.layout then SaveLayout(after, store) else store;
    if before.columns != after.columns && after.layout == Grid
    then saved[ColumnsKey := IntToDecimal(after.columns)]
    else saved
  }

  /** Start-up: a stored layout is adopted only if it is `grid` or `list`; a
      stored column count is adopted only when the layout is grid, the stored
      text is non-empty and it parses to a value from 2 to 10. */
  function Restore(store: Store, parse: string -> Option<int>): (r: LayoutState)
    ensures LayoutKey in store && ParseLayout(store[LayoutKey]).Some? ==>
              r.layout == ParseLayout(store[LayoutKey]).value
    ensures !(LayoutKey in store && ParseLayout(store[LayoutKey]).Some?) ==> r.layout == Grid
    ensures r.columns == DefaultColumns || MinColumns <= r.columns <= MaxColumns
    ensures r.columns != DefaultColumns ==>
              && r.layout == Grid
              && ColumnsKey in store && store[ColumnsKey] != ""
              && parse(store[ColumnsKey]) == Some(r.columns)
    ensures r.layout == Grid && ColumnsKey in store && store[ColumnsKey] != ""
            && parse(store[ColumnsKey]).Some?
            && MinColumns <= parse(store[ColumnsKey]).value <= MaxColumns ==>
              r.columns == parse(store[ColumnsKey]).value
  {
    var layout := if LayoutKey in store && ParseLayout(store[LayoutKey]).Some?
                  then ParseLayout(store[LayoutKey]).value else Default.layout;
    var parsed := if layout == Grid && ColumnsKey in store && store[ColumnsKey] != ""
                  then parse(store[ColumnsKey]) else None;
    var columns := if parsed.Some? && MinColumns <= parsed.value <= MaxColumns
                   then parsed.value else Default.columns;
    LayoutState(layout, columns)
  }

  /** With nothing stored, start-up keeps the defaults. */
  lemma RestoreEmpty(parse: string -> Option<int>)
    ensures Restore(map[], parse) == Default
  {
  }

  /** A saved grid layout with an in-range column count is restored as saved,
      given a parse that reads the saved numeral correctly. */
  lemma SaveThenRestoreGrid(s: LayoutState, store: Store, parse: string -> Option<int>)
    requires s.layout == Grid && MinColumns <= s.columns <= MaxColumns
    requires parse(IntToDecimal(s.columns)) == Some(s.columns)
    ensures Restore(SaveLayout(s, store), parse) == s
  {
    assert LayoutName(Grid) == "grid";
  }

  /** A saved list layout is restored as list, with the default column count
      whatever count was saved before. */
  lemma SaveThenRestoreList(s: LayoutState, store: Store, parse: string -> Option<int>)
    requires s.layout == List
    ensures Restore(SaveLayout(s, store), parse) == LayoutState(List, DefaultColumns)
  {
    assert LayoutName(List) == "list";
  }

  /** The state a reload would show: a list layout always comes back with the
      default column count, because the count is neither restored nor used. */
  function Reloaded(s: LayoutState): LayoutState {
    if s.layout == List then LayoutState(List, DefaultColumns) else s
  }

  /** The watchers keep storage in step with the state: if storage restores
      the state before a change, it restores the state after it, for any
      change of layout and any in-range column count. A grid count outside
      2..10 is saved as written but restores as the default 3, so the range
      is needed. */
  lemma {:induction false} PersistKeepsStoreInSync(before: LayoutState, after: LayoutState, store: Store)
    requires MinColumns <= after.columns <= MaxColumns
    requires Restore(store, ParseDigits) == Reloaded(before)
    ensures Restore(Persist(before, after, store), ParseDigits) == Reloaded(after)
  {
    var r := Persist(before, after, store);
    if before != after {
      if after.layout == Grid {
        DecimalRoundTrip(after.columns);
        assert r[ColumnsKey] == IntToDecimal(after.columns);
        if before.layout == after.layout {
          assert LayoutKey in r <==> LayoutKey in store;
          assert LayoutKey in store ==> r[LayoutKey] == store[LayoutKey];
        } else {
          assert r[LayoutKey] == "grid";
        }
      } else if before.layout != after.layout {
        assert r[LayoutKey] == "list";
      }
    }
  }

  /** `parseInt` on the strings it reads as plain decimal digits; anything
      else is treated as NaN. */
  function ParseDigits(s: string): Option<int> {
    if s != "" && forall i :: 0 <= i < |s| ==> IsDigit(s[i]) then Some(DigitsValue(s)) else None
  }

  /** With a parse that reads plain decimal numerals, a saved grid layout with
      an in-range column count is restored exactly. */
  lemma SaveThenRestoreGridDecimal(s: LayoutState, store: Store)
    requires s.layout == Grid && MinColumns <= s.columns <= MaxColumns
    ensures Restore(SaveLayout(s, store), ParseDigits) == s
  {
    DecimalRoundTrip(s.columns);
    SaveThenRestoreGrid(s, store, ParseDigits);
  }
}

=== FILE: paths.dfy ===
/** Directory-path arithmetic of the file browser: splitting a path into its
    segments, the parent of a path, and the breadcrumb path up to a segment. */
module Paths {
  import opened JsText

  const Root := "/"

  /** A segment is a non-empty run of characters holding no slash. */
  predicate IsSegment(x: string) {
    x != "" && '/' !in x
  }

  predicate AllSegments(xs: seq<string>) {
    forall i :: 0 <= i < |xs| ==> IsSegment(xs[i])
  }

  /** A path with a leading slash and neither a trailing nor a doubled slash
      (the root `/` itself excepted from the trailing rule). */
  predicate Canonical(p: string) {
    && |p| >= 1
    && p[0] == '/'
    && (p == Root || p[|p| - 1] != '/')
    && forall i :: 0 <= i < |p| - 1 ==> !(p[i] == '/' && p[i + 1] == '/')
  }

  /** `path.split('/').filter(Boolean)`. */
  function Segments(p: string): (r: seq<string>)
    ensures AllSegments(r)
    ensures '/' !in p ==> r == if p == "" then [] else [p]
  {
    var pieces := Split(p, '/');
    assert '/' !in p ==> pieces == [p] by {
      if '/' !in p {
        SplitWithoutSeparator(p, '/');
      }
    }
    FilterNonEmpty(pieces)
  }

  /** The segments of `a/b` are those of `a` followed by those of `b`; with
      the slash-free case above this pins down the segments of every path,
      stray, leading and trailing slashes included. */
  lemma SegmentsOfConcat(a: string, b: string)
    ensures Segments(a + "/" + b) == Segments(a) + Segments(b)
  {
    SplitConcat(a, b, '/');
    FilterConcat(Split(a, '/'), Split(b, '/'));
  }

  /** `'/' + segments.join('/')`: the absolute path made of the given segments. */
  function FromSegments(xs: seq<string>): string {
    "/" + Join(xs, "/")
  }

  /** The segments of a path, joined back behind a leading slash. */
  function Normalise(p: string): string {
    FromSegments(Segments(p))
  }

  /** Joining segments never produces a leading, trailing or doubled slash. */
  lemma {:induction false} JoinShape(xs: seq<string>)
    requires |xs| >= 1 && AllSegments(xs)
    ensures |Join(xs, "/")| >= 1
    ensures Join(xs, "/")[0] != '/'
    ensures Join(xs, "/")[|Join(xs, "/")| - 1] != '/'
    ensures forall i :: 0 <= i < |Join(xs, "/")| - 1 ==>
              !(Join(xs, "/")[i] == '/' && Join(xs, "/")[i + 1] == '/')
    decreases |xs|
  {
    assert IsSegment(xs[0]);
    if |xs| > 1 {
      var head := xs[0];
      var rest := Join(xs[1..], "/");
      JoinShape(xs[1..]);
      var j := head + "/" + rest;
      assert Join(xs, "/") == j;
      assert j[0] == head[0];
      assert j[|j| - 1] == rest[|rest| - 1];
      forall i | 0 <= i < |j| - 1
        ensures !(j[i] == '/' && j[i + 1] == '/')
      {
        if i < |head| {
          assert j[i] == head[i];
          assert head[i] in head;
        } else if i > |head| {
          assert j[i] == rest[i - |head| - 1];
          assert j[i + 1] == rest[i - |head|];
        } else {
          assert j[i + 1] == rest[0];
        }
      }
    } else {
      assert Join(xs, "/") == xs[0];
      assert xs[0][|xs[0]| - 1] in xs[0];
      assert xs[0][0] in xs[0];
    }
  }

  /** Every path built from segments is canonical. */
  lemma FromSegmentsCanonical(xs: seq<string>)
    requires AllSegments(xs)
    ensures Canonical(FromSegments(xs))
  {
    if |xs| > 0 {
      JoinShape(xs);
      var j := Join(xs, "/");
      var p := FromSegments(xs);
      assert p[1..] == j;
      forall i | 0 <= i < |p| - 1
        ensures !(p[i] == '/' && p[i + 1] == '/')
      {
        if i > 0 {
          assert p[i] == j[i - 1] && p[i + 1] == j[i];
        }
      }
    }
  }

  /** Splitting a path built from segments gives those segments back. */
  lemma {:induction false} SegmentsOfFromSegments(xs: seq<string>)
    requires AllSegments(xs)
    ensures Segments(FromSegments(xs)) == xs
  {
    var p := FromSegments(xs);
    if |xs| == 0 {
      assert p == ['/'];
      assert p[1..] == [];
      assert Split(p, '/') == ["", ""];
    } else {
      SplitJoin(xs, '/');
      assert p[0] == '/' && p[1..] == Join(xs, "/");
      assert Split(p, '/') == [""] + xs;
      assert ([""] + xs)[1..] == xs;
    }
  }

  /** Normalising is idempotent: a normalised path is its own normal form. */
  lemma NormaliseIdempotent(p: string)
    ensures Normalise(Normalise(p)) == Normalise(p)
    ensures Canonical(Normalise(p))
  {
    SegmentsOfFromSegments(Segments(p));
    FromSegmentsCanonical(Segments(p));
  }

  /** A canonical path is its own normal form. */
  lemma CanonicalIsNormal(p: string)
    requires Canonical(p)
    ensures Normalise(p) == p
  {
    if p == Root {
      assert p[1..] == [];
      assert Split(p, '/') == ["", ""];
    } else {
      var rest := p[1..];
      assert rest[0] == p[1] && rest[|rest| - 1] == p[|p| - 1];
      forall i | 0 <= i < |rest| - 1
        ensures !(rest[i] == '/' && rest[i + 1] == '/')
      {
        assert rest[i] == p[i + 1] && rest[i + 1] == p[i + 2];
      }
      SplitPiecesNonEmpty(rest, '/');
      JoinSplit(rest, '/');
      var xs := Split(rest, '/');
      assert Split(p, '/') == [""] + xs;
      assert ([""] + xs)[1..] == xs;
      assert Segments(p) == xs;
      assert p == "/" + rest;
    }
  }

  /** Normalising leaves a path unchanged exactly when it is canonical. */
  lemma NormalFormIff(p: string)
    ensures Normalise(p) == p <==> Canonical(p)
  {
    if Canonical(p) {
      CanonicalIsNormal(p);
    } else {
      FromSegmentsCanonical(Segments(p));
    }
  }

  /** The path `navigateBack` moves to: the last segment dropped, the root
      when none remains. */
  function ParentPath(p: string): (r: string)
    ensures Canonical(r)
    ensures |Segments(p)| > 0 ==> Segments(r) == Segments(p)[..|Segments(p)| - 1]
    ensures |Segments(p)| == 0 ==> r == Root
    ensures r <= Normalise(p)
  {
    var segs := Segments(p);
    var kept := if |segs| > 0 then segs[..|segs| - 1] else segs;
    assert AllSegments(kept);
    SegmentsOfFromSegments(kept);
    FromSegmentsCanonical(kept);
    JoinPrefix(segs, |kept|, "/");
    assert kept == segs[..|kept|];
    PrefixOfConcat("/", Join(kept, "/"), Join(segs, "/"));
    if |kept| > 0 then FromSegments(kept) else Root
  }

  /** Appending `/x` to a canonical path appends the segment `x`; at the root
      the doubled slash is dropped. */
  lemma SegmentsOfChild(p: string, x: string)
    requires Canonical(p) && IsSegment(x)
    ensures Segments(p + "/" + x) == Segments(p) + [x]
  {
    var xs := Segments(p);
    CanonicalIsNormal(p);
    if xs == [] {
      assert p == "/";
      assert p + "/" + x == ['/'] + (['/'] + x);
      SplitAfterSeparator(['/'] + x, '/');
      SplitAfterSeparator(x, '/');
      SplitWithoutSeparator(x, '/');
      assert Split(p + "/" + x, '/') == ["", "", x];
      assert ["", "", x][1..] == ["", x];
      assert ["", x][1..] == [x];
      assert [x][1..] == [];
      assert FilterNonEmpty([x]) == [x];
      assert FilterNonEmpty(["", x]) == [x];
    } else {
      JoinAppend(xs, x, "/");
      assert p + "/" + x == FromSegments(xs + [x]);
      SegmentsOfFromSegments(xs + [x]);
    }
  }

  /** Going back from a child directory `p/x` returns to `p`. */
  lemma ParentOfChild(p: string, x: string)
    requires Canonical(p) && IsSegment(x)
    ensures ParentPath(p + "/" + x) == p
  {
    SegmentsOfChild(p, x);
    var r := ParentPath(p + "/" + x);
    assert (Segments(p) + [x])[..|Segments(p)|] == Segments(p);
    CanonicalIsNormal(r);
    CanonicalIsNormal(p);
  }

  /** `navigateBack` from `/a/b/c` goes to `/a/b`, for any three segments. */
  lemma ParentOfThreeSegments(a: string, b: string, c: string)
    requires IsSegment(a) && IsSegment(b) && IsSegment(c)
    ensures ParentPath("/" + a + "/" + b + "/" + c) == "/" + a + "/" + b
  {
    var p := FromSegments([a, b]);
    assert Join([a, b], "/") == a + "/" + b by {
      assert [a, b][1..] == [b];
    }
    assert p == "/" + a + "/" + b;
    FromSegmentsCanonical([a, b]);
    ParentOfChild(p, c);
  }

  /** `/a//b/` splits into the pieces `"", a, "", b, ""`. */
  lemma SplitUntidyPath(a: string, b: string)
    requires IsSegment(a) && IsSegment(b)
    ensures Split("/" + a + "//" + b + "/", '/') == ["", a, "", b, ""]
  {
    assert Split(b + "/", '/') == [b, ""] by {
      SplitPrefix(b, "/", '/');
      assert Split("/", '/') == ["", ""];
      assert b + "" == b;
    }
    var t := "//" + b + "/";
    assert Split(t, '/') == ["", "", b, ""] by {
      assert t == ['/'] + (['/'] + (b + "/"));
      SplitAfterSeparator(['/'] + (b + "/"), '/');
      SplitAfterSeparator(b + "/", '/');
    }
    assert Split(a + t, '/') == [a, "", b, ""] by {
      SplitPrefix(a, t, '/');
      assert a + "" == a;
    }
    assert "/" + a + "//" + b + "/" == ['/'] + (a + t);
    SplitAfterSeparator(a + t, '/');
  }

  /** Stray and trailing slashes do not count as segments: `/a//b/` has the
      segments `a` and `b`. */
  lemma SegmentsOfUntidyPath(a: string, b: string)
    requires IsSegment(a) && IsSegment(b)
    ensures Segments("/" + a + "//" + b + "/") == [a, b]
  {
    SplitUntidyPath(a, b);
    var xs := ["", a, "", b, ""];
    assert xs[1..] == [a, "", b, ""];
    assert xs[1..][1..] == ["", b, ""];
    assert xs[1..][1..][1..] == [b, ""];
    assert xs[1..][1..][1..][1..] == [""];
    assert xs[1..][1..][1..][1..][1..] == [];
    assert FilterNonEmpty([""]) == [];
    assert FilterNonEmpty([b, ""]) == [b];
    assert FilterNonEmpty(["", b, ""]) == [b];
    assert FilterNonEmpty([a, "", b, ""]) == [a, b];
  }

  /** Going back from `/a//b/` gives `/a`. */
  lemma ParentOfUntidyPath(a: string, b: string)
    requires IsSegment(a) && IsSegment(b)
    ensures ParentPath("/" + a + "//" + b + "/") == "/" + a
  {
    SegmentsOfUntidyPath(a, b);
    var r := ParentPath("/" + a + "//" + b + "/");
    assert Segments(r) == [a];
    CanonicalIsNormal(r);
    assert Join([a], "/") == a;
  }

  /** Where JavaScript's `slice(0, end)` stops on a list of length `n`: a
      negative `end` counts back from the end. */
  function SliceEnd(end: int, n: nat): (k: nat)
    ensures k <= n
  {
    if end < 0 then (if n + end < 0 then 0 else n + end)
    else if end > n then n
    else end
  }

  /** The breadcrumb path up to and including segment `index`. */
  function PathUpTo(p: string, index: int): (r: string)
    ensures Canonical(r)
    ensures Segments(r) == Segments(p)[..SliceEnd(index + 1, |Segments(p)|)]
    ensures r <= Normalise(p)
  {
    var segs := Segments(p);
    var k := SliceEnd(index + 1, |segs|);
    var kept := segs[..k];
    assert AllSegments(kept);
    SegmentsOfFromSegments(kept);
    FromSegmentsCanonical(kept);
    JoinPrefix(segs, k, "/");
    PrefixOfConcat("/", Join(kept, "/"), Join(segs, "/"));
    FromSegments(kept)
  }

  /** The breadcrumb of the second-to-last segment is where going back leads. */
  lemma PathUpToParent(p: string)
    requires |Segments(p)| > 0
    ensures PathUpTo(p, |Segments(p)| - 2) == ParentPath(p)
  {
    var r := PathUpTo(p, |Segments(p)| - 2);
    CanonicalIsNormal(r);
    CanonicalIsNormal(ParentPath(p));
  }

  /** The breadcrumb of the last segment is the whole normalised path. */
  lemma PathUpToLast(p: string, index: int)
    requires index >= |Segments(p)| - 1
    ensures PathUpTo(p, index) == Normalise(p)
  {
    var segs := Segments(p);
    assert segs[..SliceEnd(index + 1, |segs|)] == segs;
  }
}

=== FILE: preview.dfy ===
/** Preview of a clicked entry: which URL to show, and how a click is
    dispatched to the directory, image, video or plain-file path. The
    download-URL lookup is an oracle from a path to an optional URL. */
module Preview {
  import opened JsText
  import opened FileTypes
  import opened FileUtils

  /** The URL chosen for a preview, and the path handed to the download
      lookup (absent when the lookup was not consulted). */
  datatype Resolution = Resolution(url: string, lookedUp: Option<string>)

  /** The URLs of the image and video previews on show (`null` is `None`). */
  datatype PreviewState = PreviewState(image: Option<string>, video: Option<string>)

  datatype ClickKind = Directory | Image | Video | Download

  /** What a click did: its kind, the preview state afterwards, the URL opened
      in a new window, and the path handed to the download lookup. */
  datatype Click = Click(kind: ClickKind, preview: PreviewState, newWindow: Option<string>, lookedUp: Option<string>)

  /** The path the download lookup is asked about. */
  function DownloadPath(currentPath: string, name: string): string {
    currentPath + "/" + name
  }

  /** A looked-up download URL as the preview uses it: videos go through the
      relay, a falsy lookup result offers nothing. */
  function Downloaded(f: FileItem, url: Option<string>): Option<string> {
    if !Truthy(url) then None
    else if IsVideo(f) then Some(ConvertToProxyUrl(url.value))
    else url
  }

  /** The first truthy candidate, or the empty string when there is none. */
  function FirstTruthy(cs: seq<Option<string>>): (r: string)
    ensures r == "" <==> forall i :: 0 <= i < |cs| ==> !Truthy(cs[i])
    ensures r != "" ==> exists i :: 0 <= i < |cs| && Truthy(cs[i]) && cs[i].value == r
                                    && forall j :: 0 <= j < i ==> !Truthy(cs[j])
  {
    if cs == [] then ""
    else if Truthy(cs[0]) then cs[0].value
    else
      var r := FirstTruthy(cs[1..]);
      assert forall i :: 1 <= i < |cs| ==> cs[i] == cs[1..][i - 1];
      assert r != "" ==> exists i :: 0 <= i < |cs| && Truthy(cs[i]) && cs[i].value == r
                                    && forall j :: 0 <= j < i ==> !Truthy(cs[j]) by {
        if r != "" {
          var k :| 0 <= k < |cs[1..]| && Truthy(cs[1..][k]) && cs[1..][k].value == r
                   && forall j :: 0 <= j < k ==> !Truthy(cs[1..][j]);
          assert Truthy(cs[k + 1]) && cs[k + 1].value == r;
          forall j | 0 <= j < k + 1
            ensures !Truthy(cs[j])
          {
            if j > 0 {
              assert cs[j] == cs[1..][j - 1];
            }
          }
        }
      }
      r
  }

  /** The preview URL of a file: its own raw URL when it has one (without
      consulting the lookup); otherwise the looked-up download URL, relayed for
      videos; otherwise its thumbnail; otherwise the empty string. */
  function PreviewUrl(f: FileItem, currentPath: string, lookup: string -> Option<string>): (r: Resolution)
    ensures Truthy(f.rawUrl) ==> r == Resolution(f.rawUrl.value, None)
    ensures !Truthy(f.rawUrl) ==> r.lookedUp == Some(DownloadPath(currentPath, f.name))
    ensures !Truthy(f.rawUrl) && Truthy(lookup(DownloadPath(currentPath, f.name))) ==>
              var url := lookup(DownloadPath(currentPath, f.name)).value;
              r.url == if IsVideo(f) then ConvertToProxyUrl(url) else url
    ensures !Truthy(f.rawUrl) && !Truthy(lookup(DownloadPath(currentPath, f.name))) ==>
              r.url == if Truthy(f.thumb) then f.thumb.value else ""
  {
    if Truthy(f.rawUrl) then Resolution(f.rawUrl.value, None)
    else
      var path := DownloadPath(currentPath, f.name);
      var url := lookup(path);
      if Truthy(url) then
        Resolution(if IsVideo(f) then ConvertToProxyUrl(url.value) else url.value, Some(path))
      else if Truthy(f.thumb) then Resolution(f.thumb.value, Some(path))
      else Resolution("", Some(path))
  }

  /** The preview URL is the first truthy candidate in the fixed priority
      order raw URL, download URL, thumbnail. */
  lemma PreviewIsFirstCandidate(f: FileItem, currentPath: string, lookup: string -> Option<string>)
    ensures PreviewUrl(f, currentPath, lookup).url ==
            FirstTruthy([f.rawUrl, Downloaded(f, lookup(DownloadPath(currentPath, f.name))), f.thumb])
  {
    var cs := [f.rawUrl, Downloaded(f, lookup(DownloadPath(currentPath, f.name))), f.thumb];
    assert cs[1..] == [cs[1], cs[2]];
    assert cs[1..][1..] == [cs[2]];
    assert cs[1..][1..][1..] == [];
  }

  /** The preview is empty exactly when no candidate is truthy. */
  lemma PreviewEmptyIff(f: FileItem, currentPath: string, lookup: string -> Option<string>)
    ensures PreviewUrl(f, currentPath, lookup).url == "" <==>
            !Truthy(f.rawUrl) && !Truthy(lookup(DownloadPath(currentPath, f.name))) && !Truthy(f.thumb)
  {
    PreviewIsFirstCandidate(f, currentPath, lookup);
  }

  /** Dispatches a click: a directory is reported without resolving any URL;
      an image or video resolves its preview URL and shows it when non-empty;
      any other file resolves its URL and opens it when non-empty. */
  function HandleFileClick(ps: PreviewState, f: FileItem, currentPath: string,
                           lookup: string -> Option<string>): (r: Click)
    ensures r.kind == Directory <==> f.isDir
    ensures r.kind == Image <==> IsImage(f)
    ensures r.kind == Video <==> IsVideo(f) && !IsImage(f)
    ensures r.kind == Download <==> !f.isDir && !IsImage(f) && !IsVideo(f)
    ensures r.kind == Directory ==> r.preview == ps && r.lookedUp == None && r.newWindow == None
    ensures r.kind != Directory ==> r.lookedUp == PreviewUrl(f, currentPath, lookup).lookedUp
    ensures r.preview.image != ps.image ==>
              r.kind == Image && r.preview.image == Some(PreviewUrl(f, currentPath, lookup).url)
              && PreviewUrl(f, currentPath, lookup).url != ""
    ensures r.preview.video != ps.video ==>
              r.kind == Video && r.preview.video == Some(PreviewUrl(f, currentPath, lookup).url)
              && PreviewUrl(f, currentPath, lookup).url != ""
    ensures r.kind == Image && PreviewUrl(f, currentPath, lookup).url != "" ==>
              r.preview == ps.(image := Some(PreviewUrl(f, currentPath, lookup).url))
    ensures r.kind == Video && PreviewUrl(f, currentPath, lookup).url != "" ==>
              r.preview == ps.(video := Some(PreviewUrl(f, currentPath, lookup).url))
    ensures r.newWindow.Some? <==> r.kind == Download && PreviewUrl(f, currentPath, lookup).url != ""
    ensures r.newWindow.Some? ==> r.newWindow.value == PreviewUrl(f, currentPath, lookup).url
  {
    if f.isDir then Click(Directory, ps, None, None)
    else
      var res := PreviewUrl(f, currentPath, lookup);
      if IsImage(f) then
        Click(Image, if res.url != "" then ps.(image := Some(res.url)) else ps, None, res.lookedUp)
      else if IsVideo(f) then
        Click(Video, if res.url != "" then ps.(video := Some(res.url)) else ps, None, res.lookedUp)
      else
        Click(Download, ps, if res.url != "" then Some(res.url) else None, res.lookedUp)
  }

  /** Image and video clicks are the two classifications, which never overlap,
      so a video file is always dispatched as a video. */
  lemma VideoClickIsVideo(ps: PreviewState, f: FileItem, currentPath: string, lookup: string -> Option<string>)
    requires IsVideo(f)
    ensures HandleFileClick(ps, f, currentPath, lookup).kind == Video
  {
    ImageNeverVideo(f);
  }

  /** Closing the preview clears both preview URLs. */
  function ClosePreview(ps: PreviewState): (r: PreviewState)
    ensures r.image.None? && r.video.None?
  {
    PreviewState(None, None)
  }
}

=== FILE: proxy_relay.dfy ===
/** The same-origin relay: a server middleware that takes requests under the
    `/proxy/` prefix, treats the rest of the request URL as an upstream URL,
    and forwards the request there with permissive cross-origin headers.
    Parsing a URL's host and forwarding are oracles. */
module ProxyRelay {
  import opened JsText
  import opened FileTypes
  import opened FileUtils

  /** The cross-origin headers set on every handled request. */
  const CorsHeaders: seq<Header> := [
    ("Access-Control-Allow-Origin", "*"),
    ("Access-Control-Allow-Methods", "GET, OPTIONS"),
    ("Access-Control-Allow-Headers", "Content-Type, Authorization")
  ]

  const FailureMessage := "Proxy request failed"

  /** The incoming request: its URL (possibly missing) and method. */
  datatype Request = Request(url: Option<string>, verb: string)

  /** A request handed to the forwarder: the upstream target and the headers
      it is sent with. */
  datatype Forwarding = Forwarding(target: string, headers: seq<Header>)

  /** What forwarding gave: the upstream response, or a thrown error that may
      carry a message. */
  datatype Upstream<R> = Delivered(response: R) | Threw(message: Option<string>)

  /** How the middleware finished. `Declined` passes the request on to the
      rest of the server; `HostUnparsable` is an error escaping the handler
      before any header is set; `Preflight` sets the CORS headers and then
      also returns without forwarding, so the rest of the server handles the
      `OPTIONS` request. */
  datatype Outcome<R> =
    | Declined
    | HostUnparsable(target: string)
    | Preflight(headers: seq<Header>)
    | Relayed(headers: seq<Header>, call: Forwarding, response: R)
    | Failed(headers: seq<Header>, call: Forwarding, status: int, message: string)

  /** The upstream target of a request URL: absent without the prefix,
      otherwise what `(.*)` captures after it — the rest of the URL up to the
      first line terminator. */
  function ExtractTarget(url: string): (r: Option<string>)
    ensures r.Some? <==> StartsWith(url, ProxyPrefix)
    ensures r.Some? ==> r.value <= url[|ProxyPrefix|..] && SingleLine(r.value)
    ensures r.Some? && |r.value| < |url| - |ProxyPrefix| ==>
              IsLineTerminator(url[|ProxyPrefix| + |r.value|])
  {
    if !StartsWith(url, ProxyPrefix) then None
    else Some(TakeLine(url[|ProxyPrefix|..]))
  }

  /** Rewriting a single-line URL onto the relay and extracting the target
      again gives the URL back. */
  lemma ProxyRoundTrip(u: string)
    requires SingleLine(u)
    ensures ExtractTarget(ConvertToProxyUrl(u)) == Some(u)
  {
    assert ConvertToProxyUrl(u)[|ProxyPrefix|..] == u;
    TakeLineOfSingleLine(u);
  }

  /** Conversely, a single-line relay URL is the rewriting of its target. */
  lemma TargetRoundTrip(url: string)
    requires SingleLine(url) && ExtractTarget(url).Some?
    ensures ConvertToProxyUrl(ExtractTarget(url).value) == url
  {
    var rest := url[|ProxyPrefix|..];
    assert forall i :: 0 <= i < |rest| ==> rest[i] == url[|ProxyPrefix| + i];
    TakeLineOfSingleLine(rest);
    assert url == url[..|ProxyPrefix|] + rest;
  }

  /** The middleware. Without the prefix the request is declined untouched.
      The target's host is parsed before any header is set and outside the
      error mapping. Preflight requests stop after the headers; any other
      method is forwarded with the target's host as `host`, and a thrown
      forwarding error becomes a 500 carrying its message or a default. */
  function Handle<R>(req: Request, hostOf: string -> Option<string>,
                     forward: Forwarding -> Upstream<R>): (r: Outcome<R>)
    ensures r.Declined? <==> !(req.url.Some? && StartsWith(req.url.value, ProxyPrefix))
    ensures !r.Declined? ==> ExtractTarget(req.url.value).Some?
    ensures r.HostUnparsable? ==> r.target == ExtractTarget(req.url.value).value
                                  && hostOf(r.target).None?
    ensures r.Preflight? <==> !r.Declined? && hostOf(ExtractTarget(req.url.value).value).Some?
                              && req.verb == "OPTIONS"
    ensures r.Preflight? || r.Relayed? || r.Failed? ==> r.headers == CorsHeaders
    ensures r.Relayed? || r.Failed? ==>
              && req.verb != "OPTIONS"
              && r.call.target == ExtractTarget(req.url.value).value
              && hostOf(r.call.target).Some?
              && r.call.headers == [("host", hostOf(r.call.target).value)]
    ensures r.Relayed? ==> forward(r.call) == Delivered(r.response)
    ensures r.Failed? ==> forward(r.call).Threw? && r.status == 500
                          && r.message == Or(forward(r.call).message, FailureMessage)
                          && r.message != ""
  {
    if req.url.None? || !StartsWith(req.url.value, ProxyPrefix) then Declined
    else
      var target := ExtractTarget(req.url.value).value;
      match hostOf(target)
      case None => HostUnparsable(target)
      case Some(host) =>
        if req.verb == "OPTIONS" then Preflight(CorsHeaders)
        else
          var call := Forwarding(target, [("host", host)]);
          match forward(call)
          case Delivered(response) => Relayed(CorsHeaders, call, response)
          case Threw(message) => Failed(CorsHeaders, call, 500, Or(message, FailureMessage))
  }

  /** A URL rewritten onto the relay by the browser side is forwarded to
      exactly that URL, with its host. */
  lemma RelaysRewrittenUrl<R>(u: string, verb: string, host: string,
                              hostOf: string -> Option<string>, forward: Forwarding -> Upstream<R>)
    requires SingleLine(u) && hostOf(u) == Some(host) && verb != "OPTIONS"
    ensures var r := Handle(Request(Some(ConvertToProxyUrl(u)), verb), hostOf, forward);
            (r.Relayed? || r.Failed?) && r.call == Forwarding(u, [("host", host)])
  {
    ProxyRoundTrip(u);
  }

  /** Requests outside the prefix are never handled, whatever the method. */
  lemma DeclinesOtherPaths<R>(hostOf: string -> Option<string>, forward: Forwarding -> Upstream<R>)
    ensures Handle(Request(Some("/notrelay/foo"), "GET"), hostOf, forward) == Declined
  {
    assert "/notrelay/foo"[..|ProxyPrefix|] == "/notrel";
  }
}

=== FILE: wiring.dfy ===
/** How the composables are wired together: the file list loads through the
    service client's listing call, and the preview looks download URLs up
    through the service client's download-URL call (`getDownloadUrl`, which
    posts to `/api/fs/get`). */
module Wiring {
  import opened JsText
  import opened FileTypes
  import opened FileUtils
  import FileList
  import AlistApi
  import Preview

  /** What `loadFiles` receives from `listFiles`: its result, which is null
      when the listing failed. */
  function ListThroughService(baseUrl: string, fetch: AlistApi.ListRequest -> Reply<FsList>,
                              heic: string -> AlistApi.Heic): string -> FileList.ListCall {
    path => FileList.Returned(AlistApi.ListFiles(baseUrl, path, fetch, heic).data)
  }

  /** What `getPreviewUrl` receives from `getDownloadUrl`. */
  function LookupThroughService(fetch: string -> Reply<FsGet>): string -> Option<string> {
    path => AlistApi.GetDownloadUrl(path, fetch).url
  }

  /** Loading a directory through the service client shows the post-processed
      entries of a successful listing and nothing otherwise, and never leaves
      an error in the file-list state: every failure the model expresses comes
      back from the client as a null result rather than a rejection. */
  lemma LoadThroughService(s: FileList.State, path: string, baseUrl: string,
                           fetch: AlistApi.ListRequest -> Reply<FsList>, heic: string -> AlistApi.Heic)
    ensures var r := FileList.NavigateTo(s, path, ListThroughService(baseUrl, fetch, heic)).state;
            var reply := fetch(AlistApi.ListRequestFor(path));
            && r.error == None
            && !r.loading
            && r.currentPath == path
            && if reply.Reply? && reply.code == 200 && reply.data.content.Some?
                  && AlistApi.RewriteAll(baseUrl, path, reply.data.content.value, heic).AllRewritten?
               then r.files == AlistApi.RewriteAll(baseUrl, path, reply.data.content.value, heic).items
               else r.files == []
  {
  }

  /** Previewing through the service client: a file without a raw URL of its
      own shows the detail reply's truthy `raw_url` (relayed for videos), else
      its `url` when that is non-empty, and falls back to the thumbnail when the
      detail call fails or yields an empty URL. */
  lemma PreviewThroughService(f: FileItem, currentPath: string, fetch: string -> Reply<FsGet>)
    requires !Truthy(f.rawUrl)
    ensures var path := Preview.DownloadPath(currentPath, f.name);
            var reply := fetch(path);
            var url := Preview.PreviewUrl(f, currentPath, LookupThroughService(fetch)).url;
            var relay := (u: string) => if IsVideo(f) then ConvertToProxyUrl(u) else u;
            && (reply.Reply? && reply.code == 200 && Truthy(reply.data.rawUrl) ==>
                  url == relay(reply.data.rawUrl.value))
            && (reply.Reply? && reply.code == 200 && !Truthy(reply.data.rawUrl) && reply.data.url != "" ==>
                  url == relay(reply.data.url))
            && (reply.Reply? && reply.code == 200 && !Truthy(reply.data.rawUrl) && reply.data.url == "" ==>
                  url == if Truthy(f.thumb) then f.thumb.value else "")
            && (!(reply.Reply? && reply.code == 200) ==>
                  url == if Truthy(f.thumb) then f.thumb.value else "")
  {
  }
}
